=== FILE: README.md ===
# Goal-based fund planner: schema bookkeeping and Indian number formatting in Dafny

The planner is a single Streamlit script, `pfapp.py`. It keeps two things in the session:

- a list of capital **sources**, each with a name and an annual return in percent;
- a goal **table**, made of an ordered list of column labels and one row per goal.

The table's columns are seven base columns (`Goal`, `Priority`, `Current Cost`, `Years`,
`Months`, `Inflation %`, `New SIP ROI %`) plus one column per source. That column holds the
goal's allocation from the source.

This project models the script's pure logic as pure functions over immutable values:

- `Digits`: `str()` of a natural number, as a list of decimal digits.
- `IndianFormat`: `format_indian` on integers. The last three digits form one group. Every
  earlier group has two digits, except that the leading group may have one. A negative value
  gets a `-` in front.
- `Tables`: the table, with rows as maps from column label to cell. It models the three
  pandas column edits the script uses: `df[c] = v`, `drop` and `rename`.
- `Sources`: the upgrade from legacy string sources to records, and the tests the rename
  handler runs on a new name (blank, held by another source).
- `Schema`: the `Plan` value (sources plus table), `normalize_schema`, and the invariant
  `Consistent` that the handlers keep.
- `Goals`: the add-goal and delete-goal handlers.
- `SourceEdits`: the add-source, rename-source and delete-source handlers. Each Streamlit
  handler becomes a function `Plan -> Plan`. Rename becomes `Plan -> Result<Plan, RenameError>`.
- `Load`: the load handler, which installs a saved plan and normalizes it.
- `Projection`: the branch structure of the lumpsum/SIP top-up and Python's `round`. Real
  numbers stand for floats, and the two fractional powers are inputs.

The script runs from the top on every interaction. The legacy upgrade (pfapp.py:58-61) and
`normalize_schema` (pfapp.py:96) therefore run before every other handler. The load handler is
the exception: it normalizes the loaded sources before any upgrade (see "## Findings"). The model relies on
this: `AddGoal` requires the base columns, which normalization guarantees.

Two quirks of the source are modelled as written:

- Delete goal removes every row whose `Goal` equals the selected name, not only the first.
- Add source does not check that `Source k+1` is unused. So unique source names are not an
  invariant of this code, and `Consistent` does not claim them.

`RepeatedGoalName`, `AddSourceReusesName` and `DeleteSourceSharedName` show the consequences
of these quirks.

## Model

| member | source | states |
|---|---|---|
| `Digits.DecimalString` | pfapp.py:32 | `str(abs(n))`: at least one character, all decimal digits, and a leading `0` exactly when the number is zero |
| `Digits.DecimalStringRoundTrip` | pfapp.py:32 | reading the numeral back as a number gives the original number, so the digit string loses nothing |
| `Digits.DecimalStringInjective` | pfapp.py:32 | distinct natural numbers have distinct numerals, so `str` on them loses nothing |
| `Digits.DecimalStringLength` | pfapp.py:33 | a numeral has at most k digits exactly when the number is below 10^k |
| `Digits.ShortNumeralIffBelowThousand` | pfapp.py:33 | the `len(s) <= 3` branch is taken exactly when the absolute value is below 1000 |
| `IndianFormat.FormatIndian` | pfapp.py:32-41 | for every integer n: the output starts with `-` exactly when n < 0; deleting its commas gives the sign followed by the decimal digits of the absolute value; it has a comma exactly when the absolute value is at least 1000; and then its groups are a leading group of 1 or 2 digits, middle groups of exactly 2 digits and a final group of exactly 3 digits |
| `IndianFormat.Grouped` | pfapp.py:33-40 | the unsigned part for a numeral: no sign; its digits once commas are deleted; a comma exactly when the numeral has more than three digits, and then the Indian grouping |
| `IndianFormat.GroupDigits` | pfapp.py:35-40 | the loop builds the comma-join of groups whose concatenation is the digit string, in the Indian shape, with the result starting with a digit |
| `IndianFormat.SplitJoin` | pfapp.py:39 | splitting the comma-joined groups at commas gives back exactly those groups |
| `IndianFormat.RemoveCommasJoin` | pfapp.py:39 | deleting the commas from a join of comma-free groups gives their concatenation |
| `Sources.Upgrade` | pfapp.py:58-61 | the output has the same length and order as the input; a plain-string source `s` becomes `{name: s, roi: 0}`; a record source is kept unchanged |
| `Sources.UpgradeConcat` | pfapp.py:58-61 | the upgrade works element by element, so it distributes over concatenation |
| `Sources.UpgradeIdempotent` | pfapp.py:58-61 | running the upgrade again, as every rerun does, changes nothing |
| `Sources.TakenByOtherIffOtherIndex` | pfapp.py:177 | for a name other than the source's own, the by-value test `s != src` finds exactly the other positions that hold the name |
| `Schema.AddMissing` | pfapp.py:89-94 | after one loop of `normalize_schema`, every listed name is a column; the old columns keep their places at the front; nothing else is added; the row count is unchanged; an already complete table is returned as it was |
| `Schema.AddMissingCells` | pfapp.py:89-94 | the appended columns hold 0 in every row, and the cells of the existing columns keep their values |
| `Schema.AddMissingConcat` | pfapp.py:89-94 | the base-column loop followed by the source loop equals one loop over the concatenated names |
| `Schema.Normalize` | pfapp.py:79-94 | afterwards every base column and every source name is a column; existing columns keep their places and cells; new columns hold 0 in every row; a well-formed table stays well formed |
| `Schema.NormalizeIdempotent` | pfapp.py:79-94 | normalizing twice is the same as normalizing once |
| `Schema.NormalizeConsistent` | pfapp.py:79-94 | normalizing a well-formed plan makes it consistent, and a consistent plan is left unchanged |
| `Schema.InitialPlanConsistent` | pfapp.py:52-74 | the starting session (Cash 0%, Bank 4%, the Marriage Fund goal) is consistent, so the first normalization changes nothing |
| `Load.FirstLegacy` | pfapp.py:92-93 | the position the source loop reaches first with a bare name: every entry before it is a record, and it is a bare name unless it is the end of the list |
| `Load.AddRawSourceColumns` | pfapp.py:92-94 | the source loop over the loaded list stops exactly at the first bare name, with that name and with the table holding the columns of the records before it, added in place; without a bare name it adds the same columns as the loop over the upgraded sources |
| `Load.LoadAsWritten` | pfapp.py:152-159 | loading raises exactly when the file holds a bare source name; the session then holds the file's raw source list and the file's table with the base columns and the columns of the records before the first bare name; otherwise it holds the normalized plan of the loaded sources and rows |
| `Load.LegacyPlanFailsToLoad` | pfapp.py:152-159 | a file whose only source is the bare name "Cash" raises `TypeError`, leaving the bare name and the table with the base columns added in the session |
| `Load.FailedLoadRecoversOnNextRun` | pfapp.py:152-159 | the state a failed load leaves, upgraded (lines 58-61) and normalized (line 96) as the next run does once the file is out of the uploader, is exactly the plan of the corrected load |
| `Load.LoadPlan` | pfapp.py:152-159 | loading with the upgrade run first never fails, gives every bare name a record with return 0 and a column, covers the base columns and every source name, and yields a consistent plan from a well-formed table whose sources avoid the base names |
| `Load.LoadPlanAgrees` | pfapp.py:152-159 | the corrected load gives the same plan as the handler as written whenever that one succeeds |
| `Load.LoadPlanKeepsRows` | pfapp.py:152-159 | the loaded rows survive, bare names or not: the same number of rows, the file's columns first and in order with their cells, and 0 in every appended column |
| `Goals.AddGoal` | pfapp.py:104-113 | the plan keeps its sources, columns and old rows and gains one last row that holds "Goal N+1" under `Goal`, N+1 under `Priority`, 8 under `Inflation %`, 10 under `New SIP ROI %` and 0 under every other column, where N is the old row count |
| `Goals.RowsWithout` | pfapp.py:124-127 | no kept row has the selected goal name; a row is kept exactly when it was present and does not have that name; when no row has the name, the rows are unchanged |
| `Goals.RowsWithoutConcat` | pfapp.py:124-127 | the filter distributes over concatenation, so the kept rows stay in their original order |
| `Goals.DeleteGoal` | pfapp.py:123-128 | an empty selection changes nothing; otherwise exactly the rows without the selected name remain, as the filter `RowsWithout` keeps them: in their original order and with repeats; sources and columns are untouched; deleting a name no row has changes nothing |
| `Goals.DeleteAddedGoal` | pfapp.py:104-128 | adding a goal and then deleting its generated name restores the plan, provided no earlier row had that name |
| `Goals.RepeatedGoalName` | pfapp.py:104-128 | with goals "Goal 1" and "Goal 2": delete "Goal 1", then add a goal. The new row is named "Goal 2" again, and deleting "Goal 2" then removes both rows |
| `Goals.GoalHandlersPreserveConsistency` | pfapp.py:104-128 | add goal and delete goal keep a consistent plan consistent |
| `SourceEdits.AddSource` | pfapp.py:132-135 | `{name: "Source k+1", roi: 8}` is appended, where k is the old source count; that column is appended when new, and otherwise keeps its place; every row holds 0 under it; all other sources, columns and cells are untouched |
| `SourceEdits.AddSourceReusesName` | pfapp.py:132-135 | when a source already has the generated name, the two sources share it and the shared column is reset to 0 in every row |
| `SourceEdits.DeleteSource` | pfapp.py:195-200 | source i leaves the list and the others keep their order; the other columns keep their order at the front and their cells; the only columns after them are base columns and remaining source names added back by normalization; the deleted name is still a column exactly when a base column or a remaining source has that name |
| `SourceEdits.DeleteSourceExact` | pfapp.py:195-200 | in a consistent plan, deleting a source whose name no other source shares drops exactly its column and keeps the plan consistent |
| `SourceEdits.DeleteSourceSharedName` | pfapp.py:195-200 | when another source shares the deleted name, the column survives but holds 0 in every row |
| `SourceEdits.DeleteAddedSource` | pfapp.py:132-200 | adding a source and then deleting it restores a consistent plan, provided the generated name was not already a column |
| `SourceEdits.AddDeletePreserveConsistency` | pfapp.py:132-200 | add source and delete source keep a consistent plan consistent |
| `SourceEdits.RenameSource` | pfapp.py:176-185 | a blank name or the source's own name changes nothing; the rename is refused as a duplicate exactly when the name is not blank, differs from the current one, and another source holds it; otherwise only that source's name changes, its column is relabelled in place, every row holding the old label has exactly its old labels with the old one replaced by the new one and the cell moved there, a row without it is unchanged, and every other cell is kept |
| `SourceEdits.RenameSourceChecked` | pfapp.py:176-185 | the same guards, plus: a name that already labels a column is refused; otherwise it agrees with `RenameSource`; when the old name is unique, it keeps a consistent plan consistent |
| `SourceEdits.RenameRoundTrip` | pfapp.py:176-185 | a checked rename to a fresh name is undone by renaming back, provided no other source shares the old name |
| `SourceEdits.RenameOntoBaseColumn` | pfapp.py:176-185 | in the starting plan, the rename as written accepts renaming "Cash" to "Goal" and leaves two columns labelled "Goal"; the checked rename refuses it |
| `Tables.SetColumn` | pfapp.py:135 | `df[c] = v` sets `v` under `c` in every row; a new label is appended at the end; every other cell is kept; a well-formed table stays well formed |
| `Tables.DropColumn` | pfapp.py:197-198 | dropping a column removes the label from the column list, keeping the order of the rest; every row loses only that cell |
| `Tables.RenameColumn` | pfapp.py:180-183 | `df.rename(columns={from: to})` relabels `from` as `to` in place and keeps the other labels; every row's cell under `from` is found under `to`; a row holding `from` has exactly its old labels with `from` replaced by `to`; the other cells are kept; a row without `from` is unchanged |
| `Tables.RenameColumnRoundTrip` | pfapp.py:180-183 | relabelling a column to a fresh label and back restores the table |
| `Projection.TenureMonths` | pfapp.py:279-293 | for whole years y and months m, the month count `int(round(tenure_in_years(y, m) * 12))` is exactly 12y + m |
| `Projection.RoundHalfEven` | pfapp.py:293 | `round` gives an integer within 1/2 of its argument, and on a tie it gives the even neighbour |
| `Projection.Lumpsum` | pfapp.py:288-291 | the lumpsum is never negative; it is 0 for a funded goal or a tenure that is not positive; otherwise, grown at the new return, it reaches the gap |
| `Projection.Sip` | pfapp.py:292-299 | the SIP is never negative; it is 0 for a funded goal or no months; at a zero rate it is the gap split evenly over the months; otherwise it solves the ordinary-annuity equation for the gap |
| `Projection.TopUpRequired` | pfapp.py:287-299 | neither output is ever negative; a funded goal or a tenure that is not positive needs nothing; the lumpsum and SIP meet the discount and annuity equations |

## Left out

- Streamlit widgets, `st.rerun` and all rendering (pfapp.py:5-16, 101-122, 164-175, 205-326): this is user-interface plumbing. Each handler is modelled as the state change it makes.
- The ROI select box (pfapp.py:187-193) is left out: it is a widget. It also resets a source's return to 0 when that return is not among the offered options.
- The `data_editor` write-back (pfapp.py:248-256) is left out: it is an external widget round-trip.
- JSON save and load and DataFrame construction (pfapp.py:139-157) are left out: they are I/O and foreign-library behaviour. The loaded source list and table are inputs of `Load`.
- The totals row and the sort by priority (pfapp.py:259-267, 275-322) are left out: they are presentation over floats. pandas' default sort is also not stable, so the display order of ties is not specified by the code.
- `future_value` (pfapp.py:24-25) and the sum of per-source future values (pfapp.py:283-287) are left out: they use floating-point `**` with fractional exponents.
- Projection.TopUpRequired: takes the two powers `(1 + roi/100) ** tenure` and `(1 + r_m) ** n` as inputs, with the bounds they have for non-negative returns. It uses exact real arithmetic instead of floats, so rounding error is not modelled.
- Projection.Lumpsum: the same substitution. The power is an input and the arithmetic is exact real arithmetic.
- Projection.Sip: the same substitution. The power is an input and the arithmetic is exact real arithmetic.
- IndianFormat.FormatIndian: covers integer input only. The `try/except` fallback for non-numeric input and the `round` of a float (pfapp.py:28-31) are not modelled.
- Goals.AddGoal: requires the base columns to be present. The script guarantees this by normalizing (pfapp.py:96) before any handler runs. pandas' behaviour when new keys are added to a table without them is not modelled.
- Goals.DeleteGoal: takes the selected goal as text. A numeric `Goal` cell (for example the 0 that normalization writes into a newly added `Goal` column) cannot be selected in the model.
- Table cells are modelled as exact numbers or text. pandas dtypes and missing values (NaN) are not modelled, because every handler here writes a value into every cell it creates.
- A map row cannot hold two cells with the same label. So after a rename that duplicates a label, the model shows the duplicate only in the column list.

## Findings

| source | as written | input that shows it | evidently intended | confidence | as-written member | corrected member |
|---|---|---|---|---|---|---|
| pfapp.py:176-185 | The rename handler compares the new name only against the other sources' names. Any other column label is accepted, including a base column. | In the starting plan, rename source "Cash" to "Goal". No other source is called "Goal", so `df.rename` runs and the table gets two columns labelled "Goal". | The goal fields and the per-source columns are meant to be separate: a source column should never share a label with another column. The rename should refuse a name that already labels a column. | medium; not executed | `SourceEdits.RenameOntoBaseColumn` (about `SourceEdits.RenameSource`) | `SourceEdits.RenameSourceChecked` |
| pfapp.py:152-159 | The load handler installs the file's source list as it is (line 156) and its table (line 157), and calls `normalize_schema` at once (line 158). The legacy upgrade at lines 58-61 has not run yet, so `src["name"]` at line 93 meets a bare string. | A saved plan whose sources are `["Cash"]`: line 93 raises `TypeError` after the file is installed and the base columns are added in place. While the file stays in the uploader, every run repeats the load and stops at line 158; once it is removed, the next run's upgrade and normalization finish the plan (`Load.FailedLoadRecoversOnNextRun`). | A loaded source list is upgraded before it is normalized, as at the top of the script. | medium; not executed | `Load.LegacyPlanFailsToLoad` (about `Load.LoadAsWritten`) | `Load.LoadPlan` |

=== FILE: digits.dfy ===
/** Decimal numerals of natural numbers, as Python's `str` writes a non-negative `int`:
    no sign, no leading zero, and "0" for zero. */
module Digits {

  predicate IsDigit(c: char) {
    '0' <= c <= '9'
  }

  predicate AllDigits(s: string) {
    forall k :: 0 <= k < |s| ==> IsDigit(s[k])
  }

  function DigitChar(d: nat): (c: char)
    requires d < 10
    ensures IsDigit(c)
  {
    "0123456789"[d]
  }

  function DigitValue(c: char): (d: nat)
    requires IsDigit(c)
    ensures d < 10
  {
    c as int - '0' as int
  }

  /** The decimal numeral of `n`, most significant digit first. */
  function DecimalString(n: nat): (s: string)
    ensures |s| >= 1
    ensures AllDigits(s)
    ensures s[0] == '0' <==> n == 0
    decreases n
  {
    if n < 10 then [DigitChar(n)] else DecimalString(n / 10) + [DigitChar(n % 10)]
  }

  /** The number a string of digits denotes (the empty string denotes 0). */
  function DigitsValue(s: string): nat
    requires AllDigits(s)
    decreases |s|
  {
    if |s| == 0 then 0 else DigitsValue(s[..|s| - 1]) * 10 + DigitValue(s[|s| - 1])
  }

  function Pow10(k: nat): (p: nat)
    ensures p >= 1
  {
    if k == 0 then 1 else 10 * Pow10(k - 1)
  }

  /** Reading the numeral back gives the number: `DecimalString` loses nothing. */
  lemma {:induction false} DecimalStringRoundTrip(n: nat)
    ensures DigitsValue(DecimalString(n)) == n
    decreases n
  {
    var s := DecimalString(n);
    if n < 10 {
      assert s[..|s| - 1] == [];
      assert DigitValue(DigitChar(n)) == n by {
        assert "0123456789"[n] as int - '0' as int == n;
      }
    } else {
      var p := DecimalString(n / 10);
      assert s == p + [DigitChar(n % 10)];
      assert s[..|s| - 1] == p;
      DecimalStringRoundTrip(n / 10);
      assert DigitValue(DigitChar(n % 10)) == n % 10 by {
        assert "0123456789"[n % 10] as int - '0' as int == n % 10;
      }
    }
  }

  /** Distinct numbers have distinct numerals. */
  lemma DecimalStringInjective(a: nat, b: nat)
    requires DecimalString(a) == DecimalString(b)
    ensures a == b
  {
    DecimalStringRoundTrip(a);
    DecimalStringRoundTrip(b);
  }

  /** A numeral has at most `k` digits exactly when the number is below 10^k. */
  lemma {:induction false} DecimalStringLength(n: nat, k: nat)
    requires k >= 1
    ensures |DecimalString(n)| <= k <==> n < Pow10(k)
    decreases n
  {
    if n < 10 {
      assert Pow10(k) == 10 * Pow10(k - 1);
    } else {
      assert |DecimalString(n)| == |DecimalString(n / 10)| + 1;
      if k == 1 {
        assert Pow10(1) == 10;
      } else {
        DecimalStringLength(n / 10, k - 1);
        var q := Pow10(k - 1);
        assert Pow10(k) == 10 * q;
        assert n / 10 < q <==> n < 10 * q;
      }
    }
  }

  /** The form used by the Indian grouping: at most three digits exactly below one thousand. */
  lemma ShortNumeralIffBelowThousand(n: nat)
    ensures |DecimalString(n)| <= 3 <==> n < 1000
  {
    DecimalStringLength(n, 3);
    assert Pow10(3) == 1000;
  }
}

=== FILE: goals.dfy ===
/** The two goal handlers of the action bar: add a goal row (pfapp.py:104-113) and delete the
    rows of a selected goal (pfapp.py:123-128). Both run after `normalize_schema`
    (pfapp.py:96), so the base columns are present. */
module Goals {
  import opened Digits
  import opened Tables
  import opened Schema

  /** `f"Goal {k}"`. */
  function GoalName(k: nat): string {
    "Goal " + DecimalString(k)
  }

  /** The cells the add-goal handler sets after zeroing the row. */
  const PresetColumns: set<string> := {"Goal", "Priority", "Inflation %", "New SIP ROI %"}

  /** Add goal: one row is appended, holding 0 in every column except the generated name
      "Goal N+1", priority N+1, inflation 8 and new-SIP return 10 (N the old row count). */
  function AddGoal(p: Plan): (r: Plan)
    requires Covers(p.table, BaseColumns)
    ensures r.sources == p.sources && r.table.columns == p.table.columns
    ensures |r.table.rows| == |p.table.rows| + 1
    ensures r.table.rows[..|p.table.rows|] == p.table.rows
    ensures var row := r.table.rows[|p.table.rows|];
            var n := |p.table.rows|;
            && row.Keys == ColumnSet(p.table)
            && row["Goal"] == Text(GoalName(n + 1))
            && row["Priority"] == Num((n + 1) as real)
            && row["Inflation %"] == Num(8.0)
            && row["New SIP ROI %"] == Num(10.0)
            && forall c :: c in row && c !in PresetColumns ==> row[c] == Num(0.0)
  {
    var n := |p.table.rows|;
    var zeros: Row := map c | c in p.table.columns :: Num(0.0);
    var row := zeros["Goal" := Text(GoalName(n + 1))]["Priority" := Num((n + 1) as real)]
                    ["Inflation %" := Num(8.0)]["New SIP ROI %" := Num(10.0)];
    assert "Goal" in p.table.columns && "Priority" in p.table.columns;
    assert "Inflation %" in p.table.columns && "New SIP ROI %" in p.table.columns;
    var rows := p.table.rows + [row];
    assert rows[..n] == p.table.rows;
    Plan(p.sources, Table(p.table.columns, rows))
  }

  /** The row's "Goal" cell is the text `name`. */
  predicate IsGoal(row: Row, name: string) {
    "Goal" in row && row["Goal"] == Text(name)
  }

  /** The boolean mask `df["Goal"] != name`: every row whose goal is `name` goes, the others
      stay in their order. */
  function RowsWithout(rows: seq<Row>, name: string): (kept: seq<Row>)
    ensures |kept| <= |rows|
    ensures forall k :: 0 <= k < |kept| ==> !IsGoal(kept[k], name)
    ensures forall row :: row in kept <==> row in rows && !IsGoal(row, name)
    ensures (forall k :: 0 <= k < |rows| ==> !IsGoal(rows[k], name)) ==> kept == rows
  {
    if |rows| == 0 then []
    else
      var rest := RowsWithout(rows[1..], name);
      assert rows == [rows[0]] + rows[1..];
      if IsGoal(rows[0], name) then rest else [rows[0]] + rest
  }

  /** The filter works row by row: filtering a concatenation filters each part, so the rows
      kept appear in their original order. */
  lemma {:induction false} RowsWithoutConcat(a: seq<Row>, b: seq<Row>, name: string)
    ensures RowsWithout(a + b, name) == RowsWithout(a, name) + RowsWithout(b, name)
    decreases |a|
  {
    if |a| == 0 {
      assert a + b == b;
    } else {
      assert (a + b)[0] == a[0];
      assert (a + b)[1..] == a[1..] + b;
      RowsWithoutConcat(a[1..], b, name);
    }
  }

  /** Delete goal: an empty selection does nothing; otherwise every row whose goal is the
      selected name is removed, the other rows keep their order, and the columns and sources
      stay as they were. */
  function DeleteGoal(p: Plan, selected: string): (r: Plan)
    ensures r.sources == p.sources && r.table.columns == p.table.columns
    ensures selected == "" ==> r == p
    ensures selected != "" ==>
              forall row :: row in r.table.rows <==> row in p.table.rows && !IsGoal(row, selected)
    ensures selected != "" ==> r.table.rows == RowsWithout(p.table.rows, selected)
    ensures (forall k :: 0 <= k < |p.table.rows| ==> !IsGoal(p.table.rows[k], selected)) ==> r == p
  {
    if selected == "" then p
    else Plan(p.sources, Table(p.table.columns, RowsWithout(p.table.rows, selected)))
  }

  /** Adding a goal and deleting it by its generated name restores the plan, provided no
      earlier row already carried that name (otherwise that row goes too). */
  lemma DeleteAddedGoal(p: Plan)
    requires Covers(p.table, BaseColumns)
    requires forall k :: 0 <= k < |p.table.rows| ==> !IsGoal(p.table.rows[k], GoalName(|p.table.rows| + 1))
    ensures DeleteGoal(AddGoal(p), GoalName(|p.table.rows| + 1)) == p
  {
    var name := GoalName(|p.table.rows| + 1);
    var q := AddGoal(p);
    var added := q.table.rows[|p.table.rows|];
    assert q.table.rows == p.table.rows + [added];
    RowsWithoutConcat(p.table.rows, [added], name);
    assert RowsWithout([added], name) == [] by {
      assert IsGoal(added, name);
      assert [added][1..] == [];
    }
  }

  /** Generated goal names can repeat: with goals "Goal 1" and "Goal 2", deleting "Goal 1" and
      adding a goal names the new row "Goal 2" again, and deleting "Goal 2" then removes both. */
  lemma RepeatedGoalName(p: Plan)
    requires Covers(p.table, BaseColumns) && |p.table.rows| == 2
    requires IsGoal(p.table.rows[0], GoalName(1)) && IsGoal(p.table.rows[1], GoalName(2))
    ensures var q := AddGoal(DeleteGoal(p, GoalName(1)));
            && |q.table.rows| == 2
            && IsGoal(q.table.rows[0], GoalName(2)) && IsGoal(q.table.rows[1], GoalName(2))
            && DeleteGoal(q, GoalName(2)).table.rows == []
  {
    assert GoalName(1) != GoalName(2) by {
      assert GoalName(1)[5] == '1' && GoalName(2)[5] == '2';
    }
    var rows := p.table.rows;
    var d := DeleteGoal(p, GoalName(1));
    assert rows == [rows[0]] + [rows[1]];
    RowsWithoutConcat([rows[0]], [rows[1]], GoalName(1));
    assert [rows[0]][1..] == [] && [rows[1]][1..] == [];
    assert d.table.rows == [rows[1]];
    var q := AddGoal(d);
    assert q.table.rows == [rows[1], q.table.rows[1]];
    RowsWithoutConcat([rows[1]], [q.table.rows[1]], GoalName(2));
    assert [q.table.rows[1]][1..] == [];
  }

  /** Both handlers keep a consistent plan consistent. */
  lemma GoalHandlersPreserveConsistency(p: Plan, selected: string)
    requires Consistent(p)
    ensures Consistent(AddGoal(p))
    ensures Consistent(DeleteGoal(p, selected))
  {
    var q := AddGoal(p);
    forall k | 0 <= k < |q.table.rows| ensures q.table.rows[k].Keys == ColumnSet(q.table) {
      if k < |p.table.rows| {
        assert q.table.rows[k] == p.table.rows[k];
      }
    }
    var d := DeleteGoal(p, selected);
    forall k | 0 <= k < |d.table.rows| ensures d.table.rows[k].Keys == ColumnSet(d.table) {
      assert d.table.rows[k] in p.table.rows;
    }
  }
}

=== FILE: indian_format.dfy ===
/** `format_indian`: an integer written with Indian digit grouping. The last three digits form one
    group, every earlier group has two digits except the leading one, which may have one, and
    negative values carry a leading '-'. */
module IndianFormat {
  import opened Digits

  function Abs(n: int): nat {
    if n < 0 then -n else n
  }

  function SignPrefix(n: int): string {
    if n < 0 then "-" else ""
  }

  /** `s` with a leading '-' removed, if it has one. */
  function Unsigned(s: string): string {
    if |s| > 0 && s[0] == '-' then s[1..] else s
  }

  predicate NoComma(s: string) {
    forall k :: 0 <= k < |s| ==> s[k] != ','
  }

  predicate AllCommaFree(groups: seq<string>) {
    forall k :: 0 <= k < |groups| ==> NoComma(groups[k])
  }

  /** The groups written one after another, commas left out. */
  function Concat(groups: seq<string>): string {
    if |groups| == 0 then "" else groups[0] + Concat(groups[1..])
  }

  /** The groups separated by commas. */
  function Join(groups: seq<string>): string {
    if |groups| == 0 then ""
    else if |groups| == 1 then groups[0]
    else groups[0] + "," + Join(groups[1..])
  }

  /** The pieces of `s` between commas; the inverse of `Join` on comma-free groups. */
  function Split(s: string): (groups: seq<string>)
    ensures |groups| >= 1
  {
    if |s| == 0 then [""]
    else
      var rest := Split(s[1..]);
      if s[0] == ',' then [""] + rest else [[s[0]] + rest[0]] + rest[1..]
  }

  /** `s` with every comma deleted. */
  function RemoveCommas(s: string): string {
    if |s| == 0 then ""
    else (if s[0] == ',' then "" else [s[0]]) + RemoveCommas(s[1..])
  }

  /** The Indian grouping of a number of four or more digits: a leading group of one or two
      digits, middle groups of exactly two, and a final group of exactly three. */
  predicate IndianGrouped(groups: seq<string>) {
    && |groups| >= 2
    && 1 <= |groups[0]| <= 2
    && |groups[|groups| - 1]| == 3
    && forall k :: 0 < k < |groups| - 1 ==> |groups[k]| == 2
  }

  /** What the formatter promises of the digits part `res` written for the numeral `s`: no
      sign, the digits of `s` once the commas are deleted, a comma exactly when `s` has more
      than three digits, and then the Indian grouping. */
  predicate WritesNumeral(res: string, s: string) {
    && |res| > 0 && res[0] != '-'
    && RemoveCommas(res) == s
    && ((exists k :: 0 <= k < |res| && res[k] == ',') <==> |s| > 3)
    && (|s| > 3 ==> IndianGrouped(Split(res)))
  }

  /** `r` is `n` written the Indian way: it starts with '-' exactly when `n` is negative,
      deleting its commas leaves the sign and the decimal digits of |n|, it has a comma exactly
      when |n| is at least 1000, and then its digits are grouped as `IndianGrouped` says. */
  predicate FormatsAs(r: string, n: int) {
    && |r| > 0 && (r[0] == '-' <==> n < 0)
    && RemoveCommas(r) == SignPrefix(n) + DecimalString(Abs(n))
    && ((exists k :: 0 <= k < |r| && r[k] == ',') <==> Abs(n) >= 1000)
    && (Abs(n) >= 1000 ==> IndianGrouped(Split(Unsigned(r))))
  }

  /** The formatter on integer input (pfapp.py:32-41): the digits of |n| are kept whole when
      there are at most three of them, and otherwise grouped by `GroupDigits`. */
  method FormatIndian(n: int) returns (r: string)
    ensures FormatsAs(r, n)
  {
    var res := Grouped(DecimalString(Abs(n)));
    r := SignPrefix(n) + res;
    SignedNumeral(n, res);
  }

  /** The digits part: a numeral of at most three digits as it is, a longer one grouped. */
  method Grouped(s: string) returns (res: string)
    requires AllDigits(s) && |s| >= 1
    ensures WritesNumeral(res, s)
  {
    if |s| <= 3 {
      res := s;
      ShortNumeral(s);
    } else {
      ghost var groups;
      res, groups := GroupDigits(s);
      GroupedNumeral(res, groups, s);
    }
  }

  /** A numeral of at most three digits is written as it is. */
  lemma ShortNumeral(s: string)
    requires AllDigits(s) && 1 <= |s| <= 3
    ensures WritesNumeral(s, s)
  {
    DigitsCommaFree(s);
    RemoveCommasOfCommaFree(s);
    assert IsDigit(s[0]);
  }

  /** The grouped form of a longer numeral meets the promise. */
  lemma GroupedNumeral(res: string, groups: seq<string>, d: string)
    requires AllDigits(d) && |d| > 3
    requires res == Join(groups) && IndianGrouped(groups)
    requires Concat(groups) == d && AllCommaFree(groups)
    requires IsDigit(res[0]) && NoComma(res[..|groups[0]|])
    ensures WritesNumeral(res, d)
  {
    RemoveCommasJoin(groups);
    SplitJoin(groups);
    assert res[|groups[0]|] == ',';
  }

  /** Putting the sign in front keeps the promise about the digits part. */
  lemma SignedNumeral(n: int, res: string)
    requires WritesNumeral(res, DecimalString(Abs(n)))
    ensures FormatsAs(SignPrefix(n) + res, n)
  {
    var r := SignPrefix(n) + res;
    var m := |SignPrefix(n)|;
    ShortNumeralIffBelowThousand(Abs(n));
    RemoveCommasConcat(SignPrefix(n), res);
    assert r[m..] == res;
    assert Unsigned(r) == res;
    if Abs(n) >= 1000 {
      var k :| 0 <= k < |res| && res[k] == ',';
      assert r[m + k] == ',';
    } else {
      forall k | 0 <= k < |r| ensures r[k] != ',' {
        if k >= m {
          assert r[k] == res[k - m];
        }
      }
    }
  }

  /** The loop of pfapp.py:36-40 on a numeral of more than three digits: the last three digits
      start the result, then pieces of two (or a last piece of one) are put in front of it. */
  method GroupDigits(d: string) returns (res: string, ghost groups: seq<string>)
    requires AllDigits(d) && |d| > 3
    ensures res == Join(groups) && IndianGrouped(groups)
    ensures Concat(groups) == d && AllCommaFree(groups)
    ensures IsDigit(res[0]) && NoComma(res[..|groups[0]|])
  {
    var s := d;
    res := s[|s| - 3..];
    groups := [res];
    s := s[..|s| - 3];
    DigitsCommaFree(res);
    assert s + Concat(groups) == d;
    while |s| > 0
      invariant AllDigits(s)
      invariant |groups| >= 1 && res == Join(groups)
      invariant s + Concat(groups) == d
      invariant AllCommaFree(groups)
      invariant GroupedSoFar(groups, |s| == 0)
      invariant |groups| == 1 ==> |s| > 0
      decreases |s|
    {
      var cut := if |s| >= 2 then |s| - 2 else 0;
      var g := s[cut..];
      DigitsCommaFree(g);
      PushGroup(g, groups, |s| < 2);
      res := g + "," + res;
      groups := [g] + groups;
      assert s[..cut] + g == s;
      s := s[..cut];
    }
    assert Concat(groups) == d by {
      assert s == [];
    }
    ConcatHead(groups);
    assert d[..|groups[0]|] == groups[0];
    assert res[..|groups[0]|] == groups[0];
  }

  /** The shape the loop keeps: a final group of three and groups of two before it, except that
      the front group may have one digit once the digits are used up. */
  predicate GroupedSoFar(groups: seq<string>, done: bool) {
    && |groups| >= 1
    && |groups[|groups| - 1]| == 3
    && forall k :: 0 <= k < |groups| - 1 ==>
         |groups[k]| == 2 || (k == 0 && |groups[k]| == 1 && done)
  }

  /** One step of the loop: a new front group keeps the join, the concatenation and the shape. */
  lemma PushGroup(g: string, groups: seq<string>, last: bool)
    requires GroupedSoFar(groups, false) && AllCommaFree(groups) && NoComma(g)
    requires |g| == 2 || (|g| == 1 && last)
    ensures Join([g] + groups) == g + "," + Join(groups)
    ensures Concat([g] + groups) == g + Concat(groups)
    ensures AllCommaFree([g] + groups)
    ensures GroupedSoFar([g] + groups, last)
  {
    assert ([g] + groups)[1..] == groups;
  }

  lemma DigitsCommaFree(s: string)
    requires AllDigits(s)
    ensures NoComma(s)
  {
    forall k | 0 <= k < |s| ensures s[k] != ',' {
      assert IsDigit(s[k]);
    }
  }

  lemma ConcatHead(groups: seq<string>)
    requires |groups| >= 1
    ensures Concat(groups)[..|groups[0]|] == groups[0]
  {
  }

  lemma {:induction false} RemoveCommasConcat(a: string, b: string)
    ensures RemoveCommas(a + b) == RemoveCommas(a) + RemoveCommas(b)
    decreases |a|
  {
    if |a| == 0 {
      assert a + b == b;
    } else {
      assert (a + b)[1..] == a[1..] + b;
      RemoveCommasConcat(a[1..], b);
    }
  }

  lemma {:induction false} RemoveCommasOfCommaFree(s: string)
    requires NoComma(s)
    ensures RemoveCommas(s) == s
    decreases |s|
  {
    if |s| > 0 {
      RemoveCommasOfCommaFree(s[1..]);
    }
  }

  /** Deleting the commas of a join of comma-free groups gives the groups' concatenation. */
  lemma {:induction false} RemoveCommasJoin(groups: seq<string>)
    requires AllCommaFree(groups)
    ensures RemoveCommas(Join(groups)) == Concat(groups)
    decreases |groups|
  {
    if |groups| == 1 {
      RemoveCommasOfCommaFree(groups[0]);
      assert groups[1..] == [];
    } else if |groups| >= 2 {
      var tail := Join(groups[1..]);
      RemoveCommasConcat(groups[0], "," + tail);
      RemoveCommasConcat(",", tail);
      RemoveCommasOfCommaFree(groups[0]);
      RemoveCommasJoin(groups[1..]);
      assert groups[0] + "," + tail == groups[0] + ("," + tail);
    }
  }

  lemma {:induction false} SplitCommaFree(g: string)
    requires NoComma(g)
    ensures Split(g) == [g]
    decreases |g|
  {
    if |g| > 0 {
      SplitCommaFree(g[1..]);
      assert [g[0]] + g[1..] == g;
    }
  }

  lemma {:induction false} SplitAtFirstComma(g: string, t: string)
    requires NoComma(g)
    ensures Split(g + "," + t) == [g] + Split(t)
    decreases |g|
  {
    if |g| == 0 {
      assert g + "," + t == "," + t;
      assert ("," + t)[1..] == t;
    } else {
      var s := g + "," + t;
      assert s[0] == g[0];
      assert s[1..] == g[1..] + "," + t;
      SplitAtFirstComma(g[1..], t);
      assert [g[0]] + g[1..] == g;
    }
  }

  /** `Split` undoes `Join` on a non-empty list of comma-free groups. */
  lemma {:induction false} SplitJoin(groups: seq<string>)
    requires |groups| >= 1 && AllCommaFree(groups)
    ensures Split(Join(groups)) == groups
    decreases |groups|
  {
    if |groups| == 1 {
      SplitCommaFree(groups[0]);
    } else {
      SplitAtFirstComma(groups[0], Join(groups[1..]));
      SplitJoin(groups[1..]);
      assert [groups[0]] + groups[1..] == groups;
    }
  }
}

=== FILE: load.dfy ===
/** Loading a saved plan (pfapp.py:152-159): the file's source list and rows are installed as
    they are, and `normalize_schema` runs at once, before the legacy upgrade of pfapp.py:58-61
    has turned bare names into records. */
module Load {
  import opened Sources
  import opened Tables
  import opened Schema
  import opened SourceEdits

  /** The first position of a bare name in `raw`, or `|raw|` when every entry is a record. */
  function FirstLegacy(raw: seq<RawSource>): (j: nat)
    ensures j <= |raw|
    ensures forall k :: 0 <= k < j ==> raw[k].Record?
    ensures j < |raw| ==> raw[j].Legacy?
    decreases |raw|
  {
    if |raw| == 0 || raw[0].Legacy? then 0 else 1 + FirstLegacy(raw[1..])
  }

  /** The list holds a bare name exactly when `FirstLegacy` finds one. */
  lemma FirstLegacyFinds(raw: seq<RawSource>)
    ensures FirstLegacy(raw) < |raw| <==> exists k :: 0 <= k < |raw| && raw[k].Legacy?
  {
  }

  /** The names of the upgraded sources, after the first, are those of the rest of the list. */
  lemma UpgradedNamesTail(raw: seq<RawSource>)
    requires |raw| > 0
    ensures SourceNames(Upgrade(raw))[0] == UpgradeOne(raw[0]).name
    ensures SourceNames(Upgrade(raw))[1..] == SourceNames(Upgrade(raw[1..]))
  {
    assert forall k :: 0 <= k < |raw| - 1 ==> raw[1..][k] == raw[k + 1];
  }

  /** Upgrading a prefix gives the prefix of the upgraded names. */
  lemma UpgradedNamesPrefix(raw: seq<RawSource>, j: nat)
    requires j <= |raw|
    ensures SourceNames(Upgrade(raw[..j])) == SourceNames(Upgrade(raw))[..j]
  {
    assert forall k :: 0 <= k < j ==> raw[..j][k] == raw[k];
  }

  /** Where the source loop stopped: the bare name it met and the table as it left it. */
  datatype Stop = Stop(name: string, table: Table)

  /** The source loop of `normalize_schema` (pfapp.py:92-94) over the sources as loaded: a
      record adds its column when missing, and the first bare name stops the run, the columns
      of the records before it already added in place. */
  function AddRawSourceColumns(t: Table, raw: seq<RawSource>): (r: Result<Table, Stop>)
    ensures r.Err? <==> FirstLegacy(raw) < |raw|
    ensures r.Err? ==>
              var j := FirstLegacy(raw);
              r.error == Stop(raw[j].name, AddMissing(t, SourceNames(Upgrade(raw[..j]))))
    ensures r.Ok? ==> r.value == AddMissing(t, SourceNames(Upgrade(raw)))
    decreases |raw|
  {
    if |raw| == 0 then Ok(t)
    else
      match raw[0]
      case Legacy(s) =>
        assert raw[..0] == [];
        Err(Stop(s, t))
      case Record(src) =>
        RecordStep(t, raw, src);
        var rest := AddRawSourceColumns(AddIfMissing(t, src.name), raw[1..]);
        if FirstLegacy(raw) < |raw| then
          RecordStepStopped(t, raw, src);
          rest
        else
          rest
  }

  /** One step of the source loop on a record: its column is added first, then the rest. */
  lemma RecordStep(t: Table, raw: seq<RawSource>, src: Source)
    requires |raw| > 0 && raw[0] == Record(src)
    ensures AddMissing(t, SourceNames(Upgrade(raw))) ==
            AddMissing(AddIfMissing(t, src.name), SourceNames(Upgrade(raw[1..])))
  {
    UpgradedNamesTail(raw);
    AddMissingStep(t, SourceNames(Upgrade(raw)));
  }

  /** The same step when the loop stops: the first bare name of the rest is the first bare name
      of the whole list, and the record's column comes before those of the records up to it. */
  lemma RecordStepStopped(t: Table, raw: seq<RawSource>, src: Source)
    requires |raw| > 0 && raw[0] == Record(src) && FirstLegacy(raw) < |raw|
    ensures var j := FirstLegacy(raw);
            && j == 1 + FirstLegacy(raw[1..])
            && raw[j] == raw[1..][j - 1]
            && AddMissing(t, SourceNames(Upgrade(raw[..j]))) ==
               AddMissing(AddIfMissing(t, src.name), SourceNames(Upgrade(raw[1..][..j - 1])))
  {
    var j := FirstLegacy(raw);
    assert raw[..j][1..] == raw[1..][..j - 1];
    UpgradedNamesTail(raw[..j]);
    AddMissingStep(t, SourceNames(Upgrade(raw[..j])));
  }

  /** The session as a failed load leaves it: `st.session_state` keeps the file's source list
      (line 156) and the file's table with the columns added before `src["name"]` raised. */
  datatype LoadError = TypeError(name: string, sources: seq<RawSource>, table: Table)

  /** The load handler as written: the base-column loop, then the source loop over the loaded
      list. It fails exactly when the file holds a bare source name, leaving the raw list and a
      half-normalized table behind, and otherwise normalizes the loaded plan. */
  function LoadAsWritten(raw: seq<RawSource>, t: Table): (r: Result<Plan, LoadError>)
    ensures r.Err? <==> FirstLegacy(raw) < |raw|
    ensures r.Err? ==>
              var j := FirstLegacy(raw);
              r.error == TypeError(raw[j].name, raw,
                                   AddMissing(t, BaseColumns + SourceNames(Upgrade(raw[..j]))))
    ensures r.Ok? ==> r.value == Normalize(Plan(Upgrade(raw), t))
  {
    var r := AddRawSourceColumns(AddMissing(t, BaseColumns), raw);
    if FirstLegacy(raw) < |raw| then
      LoadStops(raw, t);
      Err(TypeError(r.error.name, raw, r.error.table))
    else
      LoadRuns(raw, t);
      Ok(Plan(Upgrade(raw), r.value))
  }

  /** Both loops together stop at the first bare name, with the base columns and the columns
      of the records before it added. */
  lemma LoadStops(raw: seq<RawSource>, t: Table)
    requires FirstLegacy(raw) < |raw|
    ensures var j := FirstLegacy(raw);
            var r := AddRawSourceColumns(AddMissing(t, BaseColumns), raw);
            && r.Err?
            && r.error == Stop(raw[j].name, AddMissing(t, BaseColumns + SourceNames(Upgrade(raw[..j]))))
  {
    AddMissingConcat(t, BaseColumns, SourceNames(Upgrade(raw[..FirstLegacy(raw)])));
  }

  /** Without a bare name both loops together are `normalize_schema` of the upgraded plan. */
  lemma LoadRuns(raw: seq<RawSource>, t: Table)
    requires FirstLegacy(raw) == |raw|
    ensures var r := AddRawSourceColumns(AddMissing(t, BaseColumns), raw);
            && r.Ok?
            && Plan(Upgrade(raw), r.value) == Normalize(Plan(Upgrade(raw), t))
  {
    AddMissingConcat(t, BaseColumns, SourceNames(Upgrade(raw)));
    NormalizeTable(Plan(Upgrade(raw), t));
  }

  /** A file whose only source is the bare name "Cash" stops the load with `TypeError`, the
      session holding the bare name and the table with the base columns added. */
  lemma LegacyPlanFailsToLoad(t: Table)
    ensures LoadAsWritten([Legacy("Cash")], t) ==
            Err(TypeError("Cash", [Legacy("Cash")], AddMissing(t, BaseColumns)))
  {
    var raw := [Legacy("Cash")];
    assert FirstLegacy(raw) == 0;
    assert SourceNames(Upgrade(raw[..0])) == [];
    assert BaseColumns + [] == BaseColumns;
  }

  /** Load with the upgrade run before normalizing: it never fails; every loaded source, bare
      or record, gets its column; and a well-formed table whose sources avoid the base names
      loads consistent. */
  function LoadPlan(raw: seq<RawSource>, t: Table): (p: Plan)
    ensures p.sources == Upgrade(raw)
    ensures forall k :: 0 <= k < |raw| && raw[k].Legacy? ==>
              p.sources[k] == Source(raw[k].name, 0) && raw[k].name in p.table.columns
    ensures Covers(p.table, BaseColumns) && Covers(p.table, SourceNames(p.sources))
    ensures WellFormed(t) && ApartFromBase(p.sources) ==> Consistent(p)
  {
    var p := Normalize(Plan(Upgrade(raw), t));
    assert forall k :: 0 <= k < |raw| ==> SourceNames(p.sources)[k] == p.sources[k].name;
    p
  }

  /** The corrected load agrees with the handler as written whenever that one succeeds, that is,
      whenever the file holds no bare name. */
  lemma LoadPlanAgrees(raw: seq<RawSource>, t: Table)
    requires FirstLegacy(raw) == |raw|
    ensures LoadAsWritten(raw, t).Ok?
    ensures LoadAsWritten(raw, t).value == LoadPlan(raw, t)
  {
    var r := LoadAsWritten(raw, t);
    assert !r.Err?;
    assert LoadPlan(raw, t) == Normalize(Plan(Upgrade(raw), t));
  }

  /** The loaded rows survive the load, bare names or not: the same number of rows, the file's
      columns first and in order with their cells, and 0 in every column added for the base
      fields or the sources. */
  lemma LoadPlanKeepsRows(raw: seq<RawSource>, t: Table)
    ensures var p := LoadPlan(raw, t);
            && |p.table.rows| == |t.rows|
            && |p.table.columns| >= |t.columns| && p.table.columns[..|t.columns|] == t.columns
            && (forall k :: 0 <= k < |t.rows| ==>
                  forall c :: c in t.columns && c in t.rows[k] ==>
                    c in p.table.rows[k] && p.table.rows[k][c] == t.rows[k][c])
            && ZeroIn(p.table, p.table.columns[|t.columns|..])
  {
    assert LoadPlan(raw, t) == Normalize(Plan(Upgrade(raw), t));
  }

  /** A failed load is finished by the next run once the file is out of the uploader (while it
      stays, every run repeats the load and stops again): the upgrade at the top of the script
      turns the bare names left in the session into records, and `normalize_schema` adds the
      missing columns, giving exactly the plan the corrected load builds. */
  lemma FailedLoadRecoversOnNextRun(raw: seq<RawSource>, t: Table)
    requires FirstLegacy(raw) < |raw|
    ensures LoadAsWritten(raw, t).Err?
    ensures var e := LoadAsWritten(raw, t).error;
            Normalize(Plan(Upgrade(e.sources), e.table)) == LoadPlan(raw, t)
  {
    LoadFails(raw, t);
    HalfLoadedRecovers(raw, t, FirstLegacy(raw));
  }

  /** The error a load with a bare name stops with, and the session it leaves. */
  lemma LoadFails(raw: seq<RawSource>, t: Table)
    requires FirstLegacy(raw) < |raw|
    ensures var j := FirstLegacy(raw);
            LoadAsWritten(raw, t) ==
            Err(TypeError(raw[j].name, raw, AddMissing(t, BaseColumns + SourceNames(Upgrade(raw[..j])))))
  {
  }

  /** The same, for the table left after the records before position `j` were handled. */
  lemma HalfLoadedRecovers(raw: seq<RawSource>, t: Table, j: nat)
    requires j <= |raw|
    ensures var done := BaseColumns + SourceNames(Upgrade(raw[..j]));
            Normalize(Plan(Upgrade(raw), AddMissing(t, done))) == LoadPlan(raw, t)
  {
    var names := SourceNames(Upgrade(raw));
    UpgradedNamesPrefix(raw, j);
    AddMissingPrefixAgain(t, names, j);
    NormalizeTable(Plan(Upgrade(raw), AddMissing(t, BaseColumns + names[..j])));
    NormalizeTable(Plan(Upgrade(raw), t));
    assert LoadPlan(raw, t) == Normalize(Plan(Upgrade(raw), t));
  }

  /** Both loops over all the names, after they already ran over the base columns and the first
      `j` names, add what one run over all of them adds. */
  lemma AddMissingPrefixAgain(t: Table, names: seq<string>, j: nat)
    requires j <= |names|
    ensures AddMissing(AddMissing(t, BaseColumns + names[..j]), BaseColumns + names) ==
            AddMissing(t, BaseColumns + names)
  {
    var done := BaseColumns + names[..j];
    assert BaseColumns + names == done + names[j..] by {
      assert names == names[..j] + names[j..];
    }
    AddMissingAgain(t, done, names[j..]);
  }

  /** Running the loop again over a longer list that starts with the names already added only
      adds the rest. */
  lemma AddMissingAgain(t: Table, done: seq<string>, rest: seq<string>)
    ensures AddMissing(AddMissing(t, done), done + rest) == AddMissing(t, done + rest)
  {
    var s := AddMissing(t, done);
    AddMissingConcat(s, done, rest);
    assert AddMissing(s, done) == s;
    AddMissingConcat(t, done, rest);
  }
}

=== FILE: projection.dfy ===
/** The branch structure of the per-goal top-up (pfapp.py:287-299): the additional lumpsum
    today and the additional monthly SIP needed to close the gap between the goal's future cost
    and the future value of what is already allocated. Real arithmetic stands for Python's
    floats, and the two fractional powers are inputs (see `TopUpRequired`). */
module Projection {

  /** `tenure_in_years` (pfapp.py:21-22). */
  function Tenure(years: real, months: real): (t: real)
    ensures t * 12.0 == years * 12.0 + months
  {
    years + months / 12.0
  }

  /** Python's `round` on a number: the nearest integer, a tie going to the even neighbour. */
  function RoundHalfEven(x: real): (n: int)
    ensures -0.5 <= x - n as real <= 0.5
    ensures (x - n as real == 0.5 || n as real - x == 0.5) ==> n % 2 == 0
  {
    var f := x.Floor;
    var d := x - f as real;
    if d < 0.5 then f
    else if d > 0.5 then f + 1
    else if f % 2 == 0 then f
    else f + 1
  }

  /** The two promises of `RoundHalfEven` single out its result: no other integer is as close
      to `x` with ties going to the even one. */
  lemma RoundHalfEvenUnique(x: real, m: int)
    requires -0.5 <= x - m as real <= 0.5
    requires (x - m as real == 0.5 || m as real - x == 0.5) ==> m % 2 == 0
    ensures m == RoundHalfEven(x)
  {
  }

  /** The number of months `int(round(tenure * 12))`. */
  function Months(tenure: real): int {
    RoundHalfEven(tenure * 12.0)
  }

  /** A goal `y` years and `m` months away gets `12 * y + m` months: rounding the tenure, times
      12, back to an integer loses nothing, so the SIP runs over exactly the months entered. */
  lemma TenureMonths(y: int, m: int)
    ensures Months(Tenure(y as real, m as real)) == 12 * y + m
  {
    var x := Tenure(y as real, m as real) * 12.0;
    assert x == (12 * y + m) as real;
    RoundHalfEvenUnique(x, 12 * y + m);
  }

  datatype TopUp = TopUp(lumpsum: real, sip: real)

  /** `lumpsum_today` (pfapp.py:288-291): the gap discounted at the new return, or 0 when the
      goal is funded or the tenure is not positive. */
  function Lumpsum(gap: real, tenure: real, lumpGrowth: real): (l: real)
    requires lumpGrowth >= 1.0
    ensures l >= 0.0
    ensures gap <= 0.0 || tenure <= 0.0 ==> l == 0.0
    ensures gap > 0.0 && tenure > 0.0 ==> l * lumpGrowth == gap && l <= gap
  {
    if gap > 0.0 && tenure > 0.0 then
      var l := gap / lumpGrowth;
      assert l * lumpGrowth == gap;
      assert l * lumpGrowth >= l * 1.0;
      l
    else 0.0
  }

  /** `sip` (pfapp.py:292-299) for monthly rate `rm` over `n` months: 0 when the goal is funded
      or there are no months, the gap split evenly at a zero rate, and otherwise the payment of
      an ordinary annuity whose future value is the gap. */
  function Sip(gap: real, n: int, rm: real, annuityGrowth: real): (s: real)
    requires rm >= 0.0
    requires rm > 0.0 && n > 0 ==> annuityGrowth > 1.0
    ensures s >= 0.0
    ensures gap <= 0.0 || n <= 0 ==> s == 0.0
    ensures gap > 0.0 && n > 0 && rm == 0.0 ==> s * n as real == gap
    ensures gap > 0.0 && n > 0 && rm > 0.0 ==> s * (annuityGrowth - 1.0) == gap * rm
  {
    if gap <= 0.0 || n <= 0 then 0.0
    else if rm == 0.0 then gap / n as real
    else
      var g := annuityGrowth - 1.0;
      assert g > 0.0;
      var s := gap * rm / g;
      assert s * g == gap * rm;
      s
  }

  /** The lumpsum and SIP for a gap `gap` (future cost minus future value of existing money),
      a tenure in years and the goal's new-SIP return in whole percent. `lumpGrowth` stands for
      `(1 + newRoi / 100) ** tenure` and `annuityGrowth` for `(1 + r_m) ** n` with
      `r_m = newRoi / 100 / 12` and `n = Months(tenure)`; the returns offered are never
      negative, so both powers are at least 1, and the annuity power exceeds 1 when the rate
      and the month count are positive. Neither output is ever negative: a funded goal needs
      nothing, the lumpsum grown at the new return reaches the gap, and the SIP solves the
      future value of an ordinary annuity (plain division when the return is zero). */
  function TopUpRequired(gap: real, tenure: real, newRoi: real, lumpGrowth: real, annuityGrowth: real): (q: TopUp)
    requires newRoi >= 0.0 && lumpGrowth >= 1.0
    requires newRoi > 0.0 && Months(tenure) > 0 ==> annuityGrowth > 1.0
    ensures q.lumpsum >= 0.0 && q.sip >= 0.0
    ensures gap <= 0.0 || tenure <= 0.0 ==> q == TopUp(0.0, 0.0)
    ensures gap > 0.0 && tenure > 0.0 ==> q.lumpsum * lumpGrowth == gap && q.lumpsum <= gap
    ensures Months(tenure) <= 0 ==> q.sip == 0.0
    ensures gap > 0.0 && Months(tenure) > 0 && newRoi == 0.0 ==> q.sip * Months(tenure) as real == gap
    ensures gap > 0.0 && Months(tenure) > 0 && newRoi > 0.0 ==>
              q.sip * (annuityGrowth - 1.0) == gap * (newRoi / 100.0 / 12.0)
  {
    var rm := newRoi / 100.0 / 12.0;
    assert rm > 0.0 <==> newRoi > 0.0;
    TopUp(Lumpsum(gap, tenure, lumpGrowth), Sip(gap, Months(tenure), rm, annuityGrowth))
  }

  /** With a zero new-SIP return and no growth of the lumpsum, the lumpsum is the gap itself
      and the SIP is the gap split evenly over the months. */
  lemma ZeroReturnTopUp(gap: real, tenure: real)
    requires gap > 0.0 && tenure > 0.0 && Months(tenure) > 0
    ensures TopUpRequired(gap, tenure, 0.0, 1.0, 1.0) == TopUp(gap, gap / Months(tenure) as real)
  {
  }
}

=== FILE: schema.dfy ===
/** The plan (sources plus goal table) and `normalize_schema` (pfapp.py:79-94), which makes every
    base column and every source name a column of the table, filling new columns with 0. */
module Schema {
  import opened Sources
  import opened Tables

  datatype Plan = Plan(sources: seq<Source>, table: Table)

  /** The goal fields every table carries, in the order they are added. */
  const BaseColumns: seq<string> :=
    ["Goal", "Priority", "Current Cost", "Years", "Months", "Inflation %", "New SIP ROI %"]

  /** Every name in `names` is a column of `t`. */
  predicate Covers(t: Table, names: seq<string>) {
    forall c :: c in names ==> c in t.columns
  }

  /** Every row of `t` holds 0 under each of `cols`. */
  predicate ZeroIn(t: Table, cols: seq<string>) {
    forall k :: 0 <= k < |t.rows| ==>
      forall c :: c in cols ==> c in t.rows[k] && t.rows[k][c] == Num(0.0)
  }

  /** One step of either loop: `if c not in df.columns: df[c] = 0`. */
  function AddIfMissing(t: Table, c: string): Table {
    if c in t.columns then t else SetColumn(t, c, Num(0.0))
  }

  /** The loop's first pass, then the rest. */
  lemma AddMissingStep(t: Table, names: seq<string>)
    requires |names| > 0
    ensures AddMissing(t, names) == AddMissing(AddIfMissing(t, names[0]), names[1..])
  {
  }

  /** A loop of `normalize_schema` over `names`: afterwards every name is a column, the old
      columns keep their places at the front, and nothing but the names was added. */
  function AddMissing(t: Table, names: seq<string>): (r: Table)
    ensures Covers(r, names)
    ensures |r.columns| >= |t.columns| && r.columns[..|t.columns|] == t.columns
    ensures forall c :: c in r.columns ==> c in t.columns || c in names
    ensures |r.rows| == |t.rows|
    ensures Covers(t, names) ==> r == t
    decreases |names|
  {
    if |names| == 0 then t
    else
      var s := AddIfMissing(t, names[0]);
      var r := AddMissing(s, names[1..]);
      assert r.columns[..|t.columns|] == t.columns by {
        assert s.columns[..|t.columns|] == t.columns;
        assert r.columns[..|s.columns|] == s.columns;
      }
      assert names[0] in r.columns by {
        assert names[0] in s.columns;
        assert r.columns[..|s.columns|] == s.columns;
      }
      assert forall c :: c in names[1..] ==> c in names;
      assert forall c :: c in s.columns ==> c in t.columns || c == names[0];
      assert Covers(t, names) ==> s == t && Covers(s, names[1..]);
      r
  }

  /** The columns `AddMissing` appends hold 0 in every row, and the cells of the columns that
      were already there keep their values. */
  lemma {:induction false} AddMissingCells(t: Table, names: seq<string>)
    ensures var r := AddMissing(t, names);
            && ZeroIn(r, r.columns[|t.columns|..])
            && forall k :: 0 <= k < |t.rows| ==>
                 forall c :: c in t.columns && c in t.rows[k] ==>
                   c in r.rows[k] && r.rows[k][c] == t.rows[k][c]
    decreases |names|
  {
    if |names| > 0 {
      var s := AddIfMissing(t, names[0]);
      var r := AddMissing(s, names[1..]);
      AddMissingCells(s, names[1..]);
      assert r.columns[..|s.columns|] == s.columns;
      forall k, c | 0 <= k < |r.rows| && c in r.columns[|t.columns|..]
        ensures c in r.rows[k] && r.rows[k][c] == Num(0.0)
      {
        if c !in r.columns[|s.columns|..] {
          var j :| |t.columns| <= j < |r.columns| && r.columns[j] == c;
          assert j < |s.columns|;
          assert s.columns[j] == c;
          assert c == names[0] && c !in t.columns;
          assert c in s.columns;
        }
      }
    }
  }

  /** `AddMissing` keeps a table well formed. */
  lemma {:induction false} AddMissingWellFormed(t: Table, names: seq<string>)
    requires WellFormed(t)
    ensures WellFormed(AddMissing(t, names))
    decreases |names|
  {
    if |names| > 0 {
      AddMissingWellFormed(AddIfMissing(t, names[0]), names[1..]);
    }
  }

  /** `normalize_schema`: base columns first, then one column per source, in source order. */
  function Normalize(p: Plan): (r: Plan)
    ensures r.sources == p.sources
    ensures Covers(r.table, BaseColumns) && Covers(r.table, SourceNames(p.sources))
    ensures |r.table.columns| >= |p.table.columns|
    ensures r.table.columns[..|p.table.columns|] == p.table.columns
    ensures forall c :: c in r.table.columns ==>
              c in p.table.columns || c in BaseColumns || c in SourceNames(p.sources)
    ensures |r.table.rows| == |p.table.rows|
    ensures forall k :: 0 <= k < |p.table.rows| ==>
              forall c :: c in p.table.columns && c in p.table.rows[k] ==>
                c in r.table.rows[k] && r.table.rows[k][c] == p.table.rows[k][c]
    ensures ZeroIn(r.table, r.table.columns[|p.table.columns|..])
    ensures WellFormed(p.table) ==> WellFormed(r.table)
  {
    var names := BaseColumns + SourceNames(p.sources);
    AddMissingCells(p.table, names);
    assert WellFormed(p.table) ==> WellFormed(AddMissing(p.table, names)) by {
      if WellFormed(p.table) {
        AddMissingWellFormed(p.table, names);
      }
    }
    Plan(p.sources, AddMissing(p.table, names))
  }

  /** The two loops of `normalize_schema` (base columns, then sources) act as one loop over
      the concatenated names. */
  lemma {:induction false} AddMissingConcat(t: Table, a: seq<string>, b: seq<string>)
    ensures AddMissing(AddMissing(t, a), b) == AddMissing(t, a + b)
    decreases |a|
  {
    if |a| == 0 {
      assert a + b == b;
    } else {
      assert (a + b)[0] == a[0];
      assert (a + b)[1..] == a[1..] + b;
      AddMissingConcat(AddIfMissing(t, a[0]), a[1..], b);
    }
  }

  /** `normalize_schema` is one `AddMissing` over the base columns followed by the source names. */
  lemma NormalizeTable(p: Plan)
    ensures Normalize(p) == Plan(p.sources, AddMissing(p.table, BaseColumns + SourceNames(p.sources)))
  {
  }

  /** A source name the table lacks is appended by `normalize_schema`, so it holds 0 in every row. */
  lemma NormalizeZeroesNewName(p: Plan, c: string)
    requires c !in p.table.columns && c in SourceNames(p.sources)
    ensures var r := Normalize(p).table;
            && c in r.columns
            && forall k :: 0 <= k < |r.rows| ==> c in r.rows[k] && r.rows[k][c] == Num(0.0)
  {
    AppendedColumnZero(p.table, Normalize(p).table, c);
  }

  /** A label that `r` has and `t` lacks, when `r` extends `t`'s columns with columns holding 0,
      holds 0 in every row of `r`. */
  lemma AppendedColumnZero(t: Table, r: Table, c: string)
    requires |r.columns| >= |t.columns| && r.columns[..|t.columns|] == t.columns
    requires c in r.columns && c !in t.columns && ZeroIn(r, r.columns[|t.columns|..])
    ensures forall k :: 0 <= k < |r.rows| ==> c in r.rows[k] && r.rows[k][c] == Num(0.0)
  {
    var n := |t.columns|;
    var m :| 0 <= m < |r.columns| && r.columns[m] == c;
    forall m' | 0 <= m' < n ensures r.columns[m'] != c {
      assert r.columns[m'] == r.columns[..n][m'];
    }
    assert r.columns[n..][m - n] == c;
  }

  /** Applying `normalize_schema` twice is the same as applying it once. */
  lemma NormalizeIdempotent(p: Plan)
    ensures Normalize(Normalize(p)) == Normalize(p)
  {
  }

  /** No source shares its name with a base column. */
  predicate ApartFromBase(sources: seq<Source>) {
    forall k :: 0 <= k < |sources| ==> sources[k].name !in BaseColumns
  }

  /** The state every handler expects and leaves: a well-formed table that has every base
      column and a column for every source, and no source named like a base column. */
  predicate Consistent(p: Plan) {
    && WellFormed(p.table)
    && Covers(p.table, BaseColumns)
    && Covers(p.table, SourceNames(p.sources))
    && ApartFromBase(p.sources)
  }

  /** Normalizing a well-formed plan makes it consistent, and a consistent plan is left alone. */
  lemma NormalizeConsistent(p: Plan)
    requires WellFormed(p.table) && ApartFromBase(p.sources)
    ensures Consistent(Normalize(p))
    ensures Consistent(p) ==> Normalize(p) == p
  {
  }

  /** The session's starting state (pfapp.py:52-74): sources Cash (0%) and Bank (4%), and one goal. */
  function InitialPlan(): Plan {
    var row: Row := map[
      "Goal" := Text("Marriage Fund"), "Priority" := Num(1.0), "Current Cost" := Num(5000000.0),
      "Years" := Num(5.0), "Months" := Num(0.0), "Inflation %" := Num(8.0),
      "New SIP ROI %" := Num(10.0), "Cash" := Num(1000000.0), "Bank" := Num(1000000.0)];
    Plan([Source("Cash", 0), Source("Bank", 4)],
         Table(BaseColumns + ["Cash", "Bank"], [row]))
  }

  /** The starting state is already consistent, so the first normalization changes nothing. */
  lemma InitialPlanConsistent()
    ensures Consistent(InitialPlan())
    ensures Normalize(InitialPlan()) == InitialPlan()
  {
    var p := InitialPlan();
    InitialTableWellFormed();
    assert ApartFromBase(p.sources);
    NormalizeConsistent(p);
  }

  lemma InitialTableWellFormed()
    ensures WellFormed(InitialPlan().table)
  {
    var t := InitialPlan().table;
    assert Distinct(t.columns);
    assert t.rows[0].Keys == ColumnSet(t);
  }
}

=== FILE: source_edits.dfy ===
/** The source handlers: add a source (pfapp.py:132-135), rename one (pfapp.py:176-185) and
    delete one (pfapp.py:195-200). Each is a pure function of the plan. */
module SourceEdits {
  import opened Digits
  import opened Sources
  import opened Tables
  import opened Schema

  datatype RenameError = DuplicateName(name: string) | ColumnTaken(name: string)

  datatype Result<+T, +E> = Ok(value: T) | Err(error: E)

  /** `f"Source {k}"`. */
  function SourceName(k: nat): string {
    "Source " + DecimalString(k)
  }

  /** A generated source name never clashes with a base column. */
  lemma SourceNameNotBase(k: nat)
    ensures SourceName(k) !in BaseColumns
  {
    assert SourceName(k)[0] == 'S';
  }

  /** Add source: "Source k+1" (k the old source count) is appended with return 8, and its
      column is set to 0 in every row. The name is not checked against the existing ones: when
      it is already a column, that column keeps its place and its cells are overwritten. */
  function AddSource(p: Plan): (r: Plan)
    ensures var name := SourceName(|p.sources| + 1);
            && r.sources == p.sources + [Source(name, 8)]
            && (name in p.table.columns ==> r.table.columns == p.table.columns)
            && (name !in p.table.columns ==> r.table.columns == p.table.columns + [name])
            && |r.table.rows| == |p.table.rows|
            && forall k :: 0 <= k < |p.table.rows| ==>
                 && r.table.rows[k].Keys == p.table.rows[k].Keys + {name}
                 && r.table.rows[k][name] == Num(0.0)
                 && Keeps(p.table.rows[k], r.table.rows[k], {name})
  {
    var name := SourceName(|p.sources| + 1);
    Plan(p.sources + [Source(name, 8)], SetColumn(p.table, name, Num(0.0)))
  }

  /** The source list without position `i`. */
  function RemoveAt(sources: seq<Source>, i: nat): (rest: seq<Source>)
    requires i < |sources|
    ensures |rest| == |sources| - 1
    ensures forall j :: 0 <= j < i ==> rest[j] == sources[j]
    ensures forall j :: i <= j < |rest| ==> rest[j] == sources[j + 1]
  {
    sources[..i] + sources[i + 1..]
  }

  /** Delete source `i`: it leaves the list, its column is dropped when present, and the schema
      is normalized again. So the other columns keep their order at the front, the column comes
      back at the end, as zeros, exactly when a base column or a remaining source has the same
      name, and every other cell is kept. */
  function DeleteSource(p: Plan, i: nat): (r: Plan)
    requires i < |p.sources|
    ensures r.sources == RemoveAt(p.sources, i)
    ensures var kept := Without(p.table.columns, p.sources[i].name);
            && |r.table.columns| >= |kept| && r.table.columns[..|kept|] == kept
            && forall c :: c in r.table.columns ==>
                 c in kept || c in BaseColumns || c in SourceNames(r.sources)
    ensures Covers(r.table, BaseColumns) && Covers(r.table, SourceNames(r.sources))
    ensures p.sources[i].name in r.table.columns <==>
              p.sources[i].name in BaseColumns || p.sources[i].name in SourceNames(r.sources)
    ensures |r.table.rows| == |p.table.rows|
    ensures forall k :: 0 <= k < |p.table.rows| ==>
              forall c :: c != p.sources[i].name && c in p.table.columns && c in p.table.rows[k] ==>
                c in r.table.rows[k] && r.table.rows[k][c] == p.table.rows[k][c]
    ensures WellFormed(p.table) ==> WellFormed(r.table)
  {
    var name := p.sources[i].name;
    var t := if name in p.table.columns then DropColumn(p.table, name) else p.table;
    assert name !in t.columns;
    Normalize(Plan(RemoveAt(p.sources, i), t))
  }

  /** No source other than the one at `i` carries its name. */
  predicate NameUniqueAt(sources: seq<Source>, i: nat)
    requires i < |sources|
  {
    forall j :: 0 <= j < |sources| && j != i ==> sources[j].name != sources[i].name
  }

  /** Deleting a source whose name no other source shares, from a consistent plan, drops
      exactly its column: normalization then finds nothing to add. */
  lemma DeleteSourceExact(p: Plan, i: nat)
    requires Consistent(p) && i < |p.sources| && NameUniqueAt(p.sources, i)
    ensures DeleteSource(p, i).table == DropColumn(p.table, p.sources[i].name)
    ensures Consistent(DeleteSource(p, i))
  {
    var name := p.sources[i].name;
    assert name in SourceNames(p.sources);
    var q := Plan(RemoveAt(p.sources, i), DropColumn(p.table, name));
    assert name !in BaseColumns;
    forall c | c in SourceNames(q.sources) ensures c in q.table.columns {
      var j :| 0 <= j < |q.sources| && q.sources[j].name == c;
      var j' := if j < i then j else j + 1;
      assert p.sources[j'].name == c && c in SourceNames(p.sources);
    }
    NormalizeConsistent(q);
  }

  /** When another source shares the deleted source's name, the shared column is dropped and
      then re-added by normalization: it survives, but holds 0 in every row. */
  lemma DeleteSourceSharedName(p: Plan, i: nat, j: nat)
    requires Consistent(p) && i < |p.sources| && j < |p.sources| && j != i
    requires p.sources[j].name == p.sources[i].name
    ensures var r := DeleteSource(p, i);
            && p.sources[i].name in r.table.columns
            && forall k :: 0 <= k < |r.table.rows| ==>
                 p.sources[i].name in r.table.rows[k] && r.table.rows[k][p.sources[i].name] == Num(0.0)
  {
    var name := p.sources[i].name;
    var rest := RemoveAt(p.sources, i);
    var t := DropColumn(p.table, name);
    assert name in SourceNames(p.sources);
    assert name !in t.columns;
    var r := Normalize(Plan(rest, t));
    assert name in SourceNames(rest) by {
      var j' := if j < i then j else j - 1;
      assert rest[j'].name == name;
    }
    NormalizeZeroesNewName(Plan(rest, t), name);
  }

  /** Adding a source and deleting it again restores a consistent plan, provided the generated
      name was not already a column. */
  lemma DeleteAddedSource(p: Plan)
    requires Consistent(p) && SourceName(|p.sources| + 1) !in p.table.columns
    ensures DeleteSource(AddSource(p), |p.sources|) == p
  {
    var name := SourceName(|p.sources| + 1);
    var q := AddSource(p);
    assert RemoveAt(q.sources, |p.sources|) == p.sources;
    DropSetColumn(p.table, name, Num(0.0));
    NormalizeConsistent(p);
  }

  /** The generated name is not checked for freshness: when a source already carries it (after
      deleting "Source 1" of "Source 1" and "Source 2", the next name is "Source 2" again), two
      sources share the name and their shared column is reset to 0. */
  lemma AddSourceReusesName(p: Plan, j: nat)
    requires j < |p.sources| && p.sources[j].name == SourceName(|p.sources| + 1)
    ensures var r := AddSource(p);
            && r.sources[j].name == r.sources[|p.sources|].name
            && forall k :: 0 <= k < |r.table.rows| ==>
                 r.table.rows[k][SourceName(|p.sources| + 1)] == Num(0.0)
  {
  }

  /** The add and delete handlers keep a consistent plan consistent. */
  lemma AddDeletePreserveConsistency(p: Plan, i: nat)
    requires Consistent(p) && i < |p.sources|
    ensures Consistent(AddSource(p))
    ensures Consistent(DeleteSource(p, i))
  {
    AddSourcePreservesConsistency(p);
    DeleteSourcePreservesConsistency(p, i);
  }

  lemma AddSourcePreservesConsistency(p: Plan)
    requires Consistent(p)
    ensures Consistent(AddSource(p))
  {
    var q := AddSource(p);
    SourceNameNotBase(|p.sources| + 1);
    assert SourceNames(q.sources) == SourceNames(p.sources) + [SourceName(|p.sources| + 1)];
  }

  lemma DeleteSourcePreservesConsistency(p: Plan, i: nat)
    requires Consistent(p) && i < |p.sources|
    ensures Consistent(DeleteSource(p, i))
  {
    var d := DeleteSource(p, i);
    assert ApartFromBase(d.sources) by {
      forall k | 0 <= k < |d.sources| ensures d.sources[k].name !in BaseColumns {
        assert d.sources[k] in p.sources;
      }
    }
  }

  /** A rename the handler carries out: the name is not blank, differs from the current one,
      and no other source holds it. */
  predicate Renamable(p: Plan, i: nat, name: string)
    requires i < |p.sources|
  {
    !Blank(name) && name != p.sources[i].name && !TakenByOther(p.sources, i, name)
  }

  /** Rename source `i` as the handler does: a blank name or the current name changes nothing,
      a name another source holds is refused, and otherwise the source and its column are
      renamed, every row's cell moving with the label. Only sources are checked, so the new
      name may already label another column. */
  function RenameSource(p: Plan, i: nat, name: string): (r: Result<Plan, RenameError>)
    requires i < |p.sources|
    ensures Blank(name) || name == p.sources[i].name ==> r == Ok(p)
    ensures r.Err? <==> !Blank(name) && name != p.sources[i].name && TakenByOther(p.sources, i, name)
    ensures r.Err? ==> r.error == DuplicateName(name)
    ensures Renamable(p, i, name) ==> RenamedAs(p, i, name, r)
  {
    var from := p.sources[i].name;
    if Blank(name) || name == from then Ok(p)
    else if TakenByOther(p.sources, i, name) then Err(DuplicateName(name))
    else Ok(Plan(p.sources[i := Source(name, p.sources[i].roi)], RenameColumn(p.table, from, name)))
  }

  /** What a carried-out rename promises: only source `i`'s name changes; its column is
      relabelled in place and each row's cell under the old name is found under the new one;
      every other cell is kept, and when the new name was not a column before, nothing at
      all is lost. */
  predicate RenamedAs(p: Plan, i: nat, name: string, r: Result<Plan, RenameError>)
    requires i < |p.sources|
  {
    var from := p.sources[i].name;
    && r.Ok?
    && |r.value.sources| == |p.sources|
    && r.value.sources[i] == Source(name, p.sources[i].roi)
    && (forall j :: 0 <= j < |p.sources| && j != i ==> r.value.sources[j] == p.sources[j])
    && |r.value.table.columns| == |p.table.columns|
    && (forall m :: 0 <= m < |p.table.columns| ==>
          r.value.table.columns[m] == if p.table.columns[m] == from then name else p.table.columns[m])
    && |r.value.table.rows| == |p.table.rows|
    && (forall k :: 0 <= k < |p.table.rows| ==>
          && (from in p.table.rows[k] ==>
                && r.value.table.rows[k].Keys == p.table.rows[k].Keys - {from} + {name}
                && r.value.table.rows[k][name] == p.table.rows[k][from])
          && (from !in p.table.rows[k] ==> r.value.table.rows[k] == p.table.rows[k])
          && from !in r.value.table.rows[k]
          && Keeps(p.table.rows[k], r.value.table.rows[k], {from, name})
          && (name !in p.table.rows[k] ==> Keeps(p.table.rows[k], r.value.table.rows[k], {from})))
  }

  /** The rename with the guard the handler lacks: a name that already labels a column of the
      table is refused too. */
  function RenameSourceChecked(p: Plan, i: nat, name: string): (r: Result<Plan, RenameError>)
    requires i < |p.sources|
    ensures Blank(name) || name == p.sources[i].name ==> r == Ok(p)
    ensures Renamable(p, i, name) && name in p.table.columns ==> r == Err(ColumnTaken(name))
    ensures !Blank(name) && name != p.sources[i].name && TakenByOther(p.sources, i, name) ==>
              r == Err(DuplicateName(name))
    ensures Renamable(p, i, name) && name !in p.table.columns ==> r == RenameSource(p, i, name)
    ensures r.Ok? && Consistent(p) && NameUniqueAt(p.sources, i) ==> Consistent(r.value)
  {
    var from := p.sources[i].name;
    if Blank(name) || name == from then Ok(p)
    else if TakenByOther(p.sources, i, name) then Err(DuplicateName(name))
    else if name in p.table.columns then Err(ColumnTaken(name))
    else
      var q := Plan(p.sources[i := Source(name, p.sources[i].roi)], RenameColumn(p.table, from, name));
      assert Consistent(p) && NameUniqueAt(p.sources, i) ==> Consistent(q) by {
        if Consistent(p) && NameUniqueAt(p.sources, i) {
          RenamePreservesConsistency(p, i, name);
        }
      }
      Ok(q)
  }

  lemma RenamePreservesConsistency(p: Plan, i: nat, name: string)
    requires Consistent(p) && i < |p.sources| && NameUniqueAt(p.sources, i)
    requires Renamable(p, i, name) && name !in p.table.columns
    ensures Consistent(Plan(p.sources[i := Source(name, p.sources[i].roi)],
                            RenameColumn(p.table, p.sources[i].name, name)))
  {
    var from := p.sources[i].name;
    var q := Plan(p.sources[i := Source(name, p.sources[i].roi)], RenameColumn(p.table, from, name));
    assert from in SourceNames(p.sources);
    RenameColumnWellFormed(p.table, from, name);
    assert from !in BaseColumns;
    forall c | c in BaseColumns ensures c in q.table.columns {
      assert c in ColumnSet(p.table) - {from} + {name};
    }
    forall c | c in SourceNames(q.sources) ensures c in q.table.columns {
      var j :| 0 <= j < |q.sources| && q.sources[j].name == c;
      if j != i {
        assert p.sources[j].name == c && c in SourceNames(p.sources);
      }
      assert c in ColumnSet(p.table) - {from} + {name};
    }
    assert ApartFromBase(q.sources) by {
      assert name !in BaseColumns;
    }
  }

  /** A checked rename to a fresh name can be undone by renaming back, provided no other source
      shares the old name. */
  lemma RenameRoundTrip(p: Plan, i: nat, name: string)
    requires Consistent(p) && i < |p.sources| && !Blank(p.sources[i].name) && NameUniqueAt(p.sources, i)
    requires RenameSourceChecked(p, i, name).Ok?
    ensures RenameSourceChecked(RenameSourceChecked(p, i, name).value, i, p.sources[i].name) == Ok(p)
  {
    var from := p.sources[i].name;
    var r := RenameSourceChecked(p, i, name);
    if !Blank(name) && name != from {
      var q := r.value;
      assert from in SourceNames(p.sources);
      RenameColumnRoundTrip(p.table, from, name);
      RenameColumnWellFormed(p.table, from, name);
      assert from !in q.table.columns;
      assert !TakenByOther(q.sources, i, from) by {
        forall j | 0 <= j < |q.sources| ensures !(q.sources[j] != q.sources[i] && q.sources[j].name == from) {
          if j != i {
            assert q.sources[j] == p.sources[j];
          }
        }
      }
      assert q.sources[i := Source(from, q.sources[i].roi)] == p.sources;
    }
  }

  /** The handler as written lets a source take the name of a base column: renaming "Cash" to
      "Goal" in the starting plan succeeds and leaves two columns labelled "Goal". The checked
      rename refuses it. */
  lemma RenameOntoBaseColumn()
    ensures var r := RenameSource(InitialPlan(), 0, "Goal");
            r.Ok? && !Distinct(r.value.table.columns)
    ensures RenameSourceChecked(InitialPlan(), 0, "Goal") == Err(ColumnTaken("Goal"))
  {
    var p := InitialPlan();
    assert !Blank("Goal") by {
      assert !IsSpace("Goal"[0]);
    }
    assert !TakenByOther(p.sources, 0, "Goal");
    var r := RenameSource(p, 0, "Goal");
    assert r.value.table.columns[0] == "Goal";
    assert r.value.table.columns[7] == "Goal";
  }
}

=== FILE: sources.dfy ===
/** Capital sources: a name and an annual return in whole percent. Saved plans may hold a source
    as a bare name (the legacy form), which the top of the script upgrades to a record on every
    run (pfapp.py:58-61); the load handler normalizes before that upgrade (see `Load`). */
module Sources {

  datatype Source = Source(name: string, roi: int)

  /** A source as found in the session or in a loaded plan: a bare string or a record. */
  datatype RawSource = Legacy(name: string) | Record(source: Source)

  function UpgradeOne(raw: RawSource): Source {
    match raw
    case Legacy(s) => Source(s, 0)
    case Record(src) => src
  }

  /** The legacy upgrade: bare names become records with return 0, records are kept, and the
      list keeps its length and order. */
  function Upgrade(raw: seq<RawSource>): (sources: seq<Source>)
    ensures |sources| == |raw|
    ensures forall k :: 0 <= k < |raw| && raw[k].Legacy? ==> sources[k] == Source(raw[k].name, 0)
    ensures forall k :: 0 <= k < |raw| && raw[k].Record? ==> sources[k] == raw[k].source
  {
    if |raw| == 0 then [] else [UpgradeOne(raw[0])] + Upgrade(raw[1..])
  }

  /** The sources as the session holds them after an upgrade: every one a record. */
  function AsRecords(sources: seq<Source>): (raw: seq<RawSource>)
    ensures |raw| == |sources|
    ensures forall k :: 0 <= k < |sources| ==> raw[k] == Record(sources[k])
  {
    seq(|sources|, k requires 0 <= k < |sources| => Record(sources[k]))
  }

  /** The upgrade runs on every rerun of the script; a second run changes nothing. */
  lemma UpgradeIdempotent(raw: seq<RawSource>)
    ensures Upgrade(AsRecords(Upgrade(raw))) == Upgrade(raw)
  {
  }

  /** The upgrade works element by element, so it distributes over concatenation. */
  lemma {:induction false} UpgradeConcat(a: seq<RawSource>, b: seq<RawSource>)
    ensures Upgrade(a + b) == Upgrade(a) + Upgrade(b)
    decreases |a|
  {
    if |a| == 0 {
      assert a + b == b;
    } else {
      assert (a + b)[1..] == a[1..] + b;
      UpgradeConcat(a[1..], b);
    }
  }

  function SourceNames(sources: seq<Source>): (names: seq<string>)
    ensures |names| == |sources|
    ensures forall k :: 0 <= k < |sources| ==> names[k] == sources[k].name
  {
    seq(|sources|, k requires 0 <= k < |sources| => sources[k].name)
  }

  /** Python's `str.isspace` for one character. */
  predicate IsSpace(c: char) {
    var x := c as int;
    || x == 0x20 || 0x09 <= x <= 0x0D || 0x1C <= x <= 0x1F || x == 0x85 || x == 0xA0
    || x == 0x1680 || 0x2000 <= x <= 0x200A || x == 0x2028 || x == 0x2029 || x == 0x202F
    || x == 0x205F || x == 0x3000
  }

  /** `s.strip()` is empty: the name is empty or whitespace only. */
  predicate Blank(s: string) {
    forall k :: 0 <= k < |s| ==> IsSpace(s[k])
  }

  /** The duplicate test of the rename handler: some source that differs from source `i` as a
      whole record (name and return) already carries `name`. */
  predicate TakenByOther(sources: seq<Source>, i: nat, name: string)
    requires i < |sources|
  {
    exists j :: 0 <= j < |sources| && sources[j] != sources[i] && sources[j].name == name
  }

  /** Comparing records rather than positions makes no difference for a name that differs
      from source `i`'s own: the test finds exactly the other positions holding the name. */
  lemma TakenByOtherIffOtherIndex(sources: seq<Source>, i: nat, name: string)
    requires i < |sources| && name != sources[i].name
    ensures TakenByOther(sources, i, name) <==>
              exists j :: 0 <= j < |sources| && j != i && sources[j].name == name
  {
    if exists j :: 0 <= j < |sources| && j != i && sources[j].name == name {
      var j :| 0 <= j < |sources| && j != i && sources[j].name == name;
      assert sources[j] != sources[i];
    }
  }
}

=== FILE: tables.dfy ===
/** The goal table: an ordered list of column labels and a list of rows, each row a map from
    column label to cell. The operations are the three pandas column edits the planner uses:
    assigning a whole column (`df[c] = v`), dropping a column and relabelling a column. */
module Tables {

  /** A cell holds a number or a piece of text (goal names live in the "Goal" column). */
  datatype Cell = Num(x: real) | Text(s: string)

  type Row = map<string, Cell>

  datatype Table = Table(columns: seq<string>, rows: seq<Row>)

  predicate Distinct(xs: seq<string>) {
    forall i, j :: 0 <= i < j < |xs| ==> xs[i] != xs[j]
  }

  function ColumnSet(t: Table): set<string> {
    set c | c in t.columns
  }

  /** Column labels are distinct and every row has a cell for exactly the table's columns. */
  predicate WellFormed(t: Table) {
    && Distinct(t.columns)
    && forall k :: 0 <= k < |t.rows| ==> t.rows[k].Keys == ColumnSet(t)
  }

  /** Row `b` holds every cell of row `a` outside the labels in `except`, with the same value. */
  predicate Keeps(a: Row, b: Row, except: set<string>) {
    forall c :: c in a && c !in except ==> c in b && b[c] == a[c]
  }

  /** `df[c] = v`: every row gets `v` under `c`; a new label is appended to the columns, an
      existing one keeps its place and has its old cells overwritten. */
  function SetColumn(t: Table, c: string, v: Cell): (r: Table)
    ensures c in t.columns ==> r.columns == t.columns
    ensures c !in t.columns ==> r.columns == t.columns + [c]
    ensures |r.rows| == |t.rows|
    ensures forall k :: 0 <= k < |t.rows| ==>
              && r.rows[k].Keys == t.rows[k].Keys + {c}
              && r.rows[k][c] == v
              && Keeps(t.rows[k], r.rows[k], {c})
    ensures WellFormed(t) ==> WellFormed(r)
  {
    var r := Table(if c in t.columns then t.columns else t.columns + [c],
                   seq(|t.rows|, k requires 0 <= k < |t.rows| => t.rows[k][c := v]));
    assert WellFormed(t) ==> ColumnSet(r) == ColumnSet(t) + {c};
    r
  }

  /** The labels of `xs` other than `c`, in their order. */
  function Without(xs: seq<string>, c: string): (ys: seq<string>)
    ensures forall x :: x in ys <==> x in xs && x != c
    ensures |ys| <= |xs|
    ensures c !in xs ==> ys == xs
    ensures Distinct(xs) ==> Distinct(ys)
  {
    if |xs| == 0 then []
    else
      var rest := Without(xs[1..], c);
      assert Distinct(xs) ==> xs[0] !in xs[1..] by {
        if Distinct(xs) {
          forall j | 0 <= j < |xs| - 1 ensures xs[1..][j] != xs[0] {
            assert xs[1..][j] == xs[j + 1];
          }
        }
      }
      if xs[0] == c then rest else [xs[0]] + rest
  }

  /** `df.drop(columns=[c])`: the label leaves the columns and every row loses its cell. */
  function DropColumn(t: Table, c: string): (r: Table)
    ensures r.columns == Without(t.columns, c)
    ensures |r.rows| == |t.rows|
    ensures forall k :: 0 <= k < |t.rows| ==>
              r.rows[k].Keys == t.rows[k].Keys - {c} && Keeps(t.rows[k], r.rows[k], {c})
    ensures WellFormed(t) ==> WellFormed(r)
  {
    var r := Table(Without(t.columns, c),
                   seq(|t.rows|, k requires 0 <= k < |t.rows| => t.rows[k] - {c}));
    assert ColumnSet(r) == ColumnSet(t) - {c};
    r
  }

  /** Every `from` label in `xs` replaced by `to`. */
  function Relabel(xs: seq<string>, from: string, to: string): (ys: seq<string>)
    ensures |ys| == |xs|
    ensures forall k :: 0 <= k < |xs| && xs[k] != from ==> ys[k] == xs[k]
    ensures forall k :: 0 <= k < |xs| && xs[k] == from ==> ys[k] == to
  {
    seq(|xs|, k requires 0 <= k < |xs| => if xs[k] == from then to else xs[k])
  }

  /** The cell under `from` moved to `to`. */
  function RenameKey(row: Row, from: string, to: string): Row {
    if from in row then (row - {from})[to := row[from]] else row
  }

  /** `df.rename(columns={from: to})`: the label changes in place and every row's cell under
      `from` is now found under `to`; a label that is not a column is ignored. */
  function RenameColumn(t: Table, from: string, to: string): (r: Table)
    ensures r.columns == Relabel(t.columns, from, to)
    ensures |r.rows| == |t.rows|
    ensures forall k :: 0 <= k < |t.rows| && from in t.rows[k] ==>
              to in r.rows[k] && r.rows[k][to] == t.rows[k][from]
    ensures forall k :: 0 <= k < |t.rows| && from != to ==> from !in r.rows[k]
    ensures forall k :: 0 <= k < |t.rows| && from !in t.rows[k] ==> r.rows[k] == t.rows[k]
    ensures forall k :: 0 <= k < |t.rows| && from in t.rows[k] ==>
              r.rows[k].Keys == t.rows[k].Keys - {from} + {to}
    ensures forall k :: 0 <= k < |t.rows| ==> Keeps(t.rows[k], r.rows[k], {from, to})
  {
    Table(Relabel(t.columns, from, to),
          seq(|t.rows|, k requires 0 <= k < |t.rows| => RenameKey(t.rows[k], from, to)))
  }

  /** Relabelling to a label no column has keeps the table well formed. */
  lemma RenameColumnWellFormed(t: Table, from: string, to: string)
    requires WellFormed(t) && from in t.columns && to !in t.columns
    ensures WellFormed(RenameColumn(t, from, to))
    ensures ColumnSet(RenameColumn(t, from, to)) == ColumnSet(t) - {from} + {to}
  {
    var r := RenameColumn(t, from, to);
    assert Distinct(r.columns) by {
      forall i, j | 0 <= i < j < |r.columns| ensures r.columns[i] != r.columns[j] {
        assert t.columns[i] != t.columns[j];
        assert t.columns[i] != to && t.columns[j] != to by {
          assert t.columns[i] in t.columns && t.columns[j] in t.columns;
        }
      }
    }
    assert ColumnSet(r) == ColumnSet(t) - {from} + {to} by {
      forall c | c in ColumnSet(t) - {from} + {to} ensures c in r.columns {
        if c == to {
          var j :| 0 <= j < |t.columns| && t.columns[j] == from;
          assert r.columns[j] == to;
        } else {
          var j :| 0 <= j < |t.columns| && t.columns[j] == c;
          assert r.columns[j] == c;
        }
      }
    }
    forall k | 0 <= k < |r.rows| ensures r.rows[k].Keys == ColumnSet(r) {
      assert r.rows[k] == RenameKey(t.rows[k], from, to);
    }
  }

  /** Renaming `from` to a fresh `to` and back restores the table. */
  lemma RenameColumnRoundTrip(t: Table, from: string, to: string)
    requires WellFormed(t) && from in t.columns && to !in t.columns
    ensures RenameColumn(RenameColumn(t, from, to), to, from) == t
  {
    var r := RenameColumn(t, from, to);
    var back := RenameColumn(r, to, from);
    assert back.columns == t.columns;
    forall k | 0 <= k < |t.rows| ensures back.rows[k] == t.rows[k] {
      assert from in t.rows[k] && to !in t.rows[k];
      assert r.rows[k] == RenameKey(t.rows[k], from, to);
      assert back.rows[k] == RenameKey(r.rows[k], to, from);
    }
  }

  /** Assigning a new column and dropping it again restores a well-formed table. */
  lemma DropSetColumn(t: Table, c: string, v: Cell)
    requires WellFormed(t) && c !in t.columns
    ensures DropColumn(SetColumn(t, c, v), c) == t
  {
    WithoutAppended(t.columns, c);
    forall k | 0 <= k < |t.rows| ensures DropColumn(SetColumn(t, c, v), c).rows[k] == t.rows[k] {
      assert c !in t.rows[k];
      SetDropRow(t, c, v, k);
    }
  }

  /** One row of `DropSetColumn`: a cell set under a label the row lacked and then removed. */
  lemma SetDropRow(t: Table, c: string, v: Cell, k: nat)
    requires k < |t.rows| && c !in t.rows[k]
    ensures DropColumn(SetColumn(t, c, v), c).rows[k] == t.rows[k]
  {
    var s := SetColumn(t, c, v);
    assert s.rows[k] == t.rows[k][c := v];
    assert DropColumn(s, c).rows[k] == s.rows[k] - {c};
    assert t.rows[k][c := v] - {c} == t.rows[k];
  }

  lemma {:induction false} WithoutAppended(xs: seq<string>, c: string)
    requires c !in xs
    ensures Without(xs + [c], c) == xs
    decreases |xs|
  {
    if |xs| == 0 {
      assert [c][1..] == [];
    } else {
      assert (xs + [c])[1..] == xs[1..] + [c];
      WithoutAppended(xs[1..], c);
      assert [xs[0]] + xs[1..] == xs;
    }
  }
}
